=== FILE: README.md ===
# Personal site script: a Dafny model

This project models the logic in the personal site's front-end script,
`js/script.js`. The script is mostly DOM wiring. Under the wiring it has
a handful of small sequential mechanisms, and each one is modelled here as
immutable records with pure step functions:

- **Contact-form validation** (`validateForm`). Four checks run in order:
  trimmed name length at least 2, the e-mail pattern
  `^[^\s@]+@[^\s@]+\.[^\s@]+$`, trimmed subject length at least 2, and
  trimmed message length at least 10. The first check that fails shows one
  error toast and stops. The e-mail pattern is stated three ways: as the
  split the regular expression describes, as plain conditions (no white
  space, exactly one `@`, a local part, a domain with an inner dot), and as
  a one-pass automaton. All three are proved to agree.
- **The submit handler.** It sets the loading flag, validates, awaits the
  (simulated) submission, shows one toast, resets the form to its declared
  default values on success, and always clears the loading flag.
- **The palette rotator.** It holds four fixed palettes and an index that
  advances `(i + 1) % 4` on every firing of a 20-second interval.
- **Theme state.** Three mechanisms are kept apart, as the script keeps
  them apart:
  - the toggle button's click handler, which flips the `dark-mode` and
    `light-mode` body classes;
  - the one-shot lock timer, which locks that handler;
  - the storage functions `setTheme`, `toggleTheme` and the initialiser,
    which write the `theme` key and the `data-theme` attribute.

  The load-time class setup, which reads the saved value before the
  initialiser rewrites it, is modelled too.
- **The mobile menu.** It has two `active` flags: one on the button and
  one on the panel.
- **Toast background colour.** A success toast is green. Every other toast
  is red.

Module `Page` puts everything into one page state. It has a `Load` function
for the script's top level and a `Step` function for each event. Properties
that span many events are proved by induction over arbitrary event
sequences. Examples are:

- the lock only ever goes from enabled to locked;
- no event writes the store;
- the palette depends only on how many times the palette timer fired;
- the menu flags stay in step.

Two behaviours of the script are worth stating plainly:

- The theme click handler only flips the body classes and never writes
  storage. `toggleTheme` would, but nothing in the script calls it. `Page.Step` proves
  that the store is unchanged by every event, a theme click included.
- The click handler toggles each class on its own rather than setting one
  mode. After a saved value other than "dark" or "light" has cleared both
  classes, the first click turns both on
  (`Theme.UnknownSavedThenClickShowsBoth`).

## Model

| member | source | states |
|---|---|---|
| Text.Trim | js/script.js:179 | `trim()` never lengthens its input; what it returns is stated by the lemmas below |
| Text.TrimEmptyIffBlank | js/script.js:179 | `trim()` returns the empty string exactly when the input is all white space |
| Text.TrimIsUnpadded | js/script.js:179 | the result of `trim()` neither starts nor ends with white space |
| Text.TrimStart | js/script.js:179 | the result is a suffix of the input |
| Text.TrimStartStops | js/script.js:179 | what `TrimStart` keeps does not start with white space, so it drops at least the longest white-space prefix; `TrimStartDropsBlank` says it drops no more |
| Text.TrimStartDropsBlank | js/script.js:179 | everything `TrimStart` drops is white space |
| Text.TrimEnd | js/script.js:179 | the result is a prefix of the input |
| Text.TrimEndStops | js/script.js:179 | what `TrimEnd` keeps does not end with white space |
| Text.TrimEndDropsBlank | js/script.js:179 | everything `TrimEnd` drops is white space |
| Text.TrimCharacterisation | js/script.js:179 | surrounding an unpadded string with white space on both sides and trimming gives that string back, so `trim` removes exactly the white-space margins |
| Text.TrimKeepsUnpadded | js/script.js:179 | a string that neither starts nor ends with white space is its own trim |
| Text.TrimIdempotent | js/script.js:192 | trimming twice is the same as trimming once |
| Email.EmailRegexIffShape | js/script.js:185-186 | the regular expression accepts a string exactly when it has no white space, exactly one '@', a non-empty part before it, and a domain after it with a '.' that has a character on each side |
| Email.PaddedEmailRejected | js/script.js:185-186 | the address is not trimmed, so leading or trailing white space makes the pattern fail |
| Email.AddressWithoutAtFails | js/script.js:185-186 | a string with no '@' never matches |
| Email.ExampleAddressMatches | js/script.js:185 | "a@b.co" matches |
| Email.MatchEmail | js/script.js:185-186 | a single left-to-right scan with a seven-state automaton returns true exactly when the regular expression matches |
| Notify.Background | js/script.js:224 | the background is green exactly for the `success` type; every other type, `info` included, gets the same red |
| Notify.InfoLooksLikeError | js/script.js:224 | info and error toasts share one colour, which differs from the success colour |
| Palette.Initial | js/script.js:107-108 | at load the index is 0 and palette 0 is applied |
| Palette.Rotate | js/script.js:102-105 | rotating maps index i to (i + 1) mod 4, and the applied palette is `lightColorPalettes` at the new index |
| Palette.RotateTimesIndex | js/script.js:102-111 | after n firings from a valid state, the index is the start index plus n, mod 4, and the applied palette still matches the index |
| Palette.RotationsCycle | js/script.js:102-105 | four firings (or any multiple of four) return to the starting state |
| Palette.ShorterRotationsDiffer | js/script.js:102-105 | one, two or three firings never return to the starting index |
| Palette.PaletteAfterTicks | js/script.js:107-111 | from load, after n firings the page shows palette n mod 4 |
| MobileMenu.ToggleMenu | js/script.js:127-130 | a toggle flips both the button flag and the panel flag |
| MobileMenu.CloseMenu | js/script.js:133-138 | a nav-link click makes both flags false |
| MobileMenu.ToggleTwice | js/script.js:127-130 | two toggles restore the original state |
| MobileMenu.EventsPreserveSync | js/script.js:127-138 | after a toggle the flags are equal exactly when they were equal before; after a nav-link click they are always equal |
| MobileMenu.CloseIdempotent | js/script.js:133-138 | closing twice is the same as closing once |
| Theme.Click | js/script.js:49-60 | while enabled, a click flips each of the two mode flags, shows no toast, and so keeps "exactly one mode shown" exactly when it held; once locked, it changes nothing and shows one `info` toast with the lock message |
| Theme.UnknownSavedThenClickShowsBoth | js/script.js:49-67 | after a saved "blue" has cleared both classes, the first click turns both `dark-mode` and `light-mode` on, because each class is toggled on its own |
| Theme.ClickSwapsMode | js/script.js:56-57 | while enabled with exactly one mode set, a click sets exactly the other one |
| Theme.ClickTwice | js/script.js:56-57 | while enabled, two clicks restore the original classes |
| Theme.LockTimerFires | js/script.js:43-47 | the timer clears the enabled flag and leaves the classes alone |
| Theme.ApplySavedTheme | js/script.js:63-67 | a missing or empty saved value leaves the classes untouched; "dark" or "light" sets exactly that mode; any other value clears both |
| Theme.SetTheme | js/script.js:70-73 | afterwards both the stored value and `data-theme` equal the given name |
| Theme.ToggleTheme | js/script.js:75-81 | stores "light" exactly when the stored value was "dark", and "dark" otherwise (a missing key included); `data-theme` follows |
| Theme.InitTheme | js/script.js:84-90 | afterwards the stored value is "dark" or "light", `data-theme` equals it, it is "dark" exactly when it was "dark" before, and a stored "dark" or "light" is kept |
| Theme.InitThemeIdempotent | js/script.js:84-90 | running the initialiser again changes nothing, and it leaves an already normalised store alone |
| Theme.ToggleThemeInvolution | js/script.js:75-81 | with "dark" or "light" stored, one toggle changes the value and two toggles restore it |
| Theme.SavedValueNormalisedAfterClasses | js/script.js:63-90 | the classes come from the value read before the initialiser runs, so a saved "blue" clears both classes while `data-theme` becomes "light" |
| ContactForm.FirstFalse | js/script.js:177-204 | the first position in a list of check outcomes whose check fails: absent exactly when all pass, and every earlier check passes |
| ContactForm.ValidateForm | js/script.js:177-204 | true exactly when trimmed name length ≥ 2, the e-mail matches, trimmed subject length ≥ 2 and trimmed message length ≥ 10; on acceptance no toast; each check's `error` toast is shown exactly when that check fails and every earlier one (name, e-mail, subject, message) passes |
| ContactForm.ValidateStopsAtFirstFailure | js/script.js:177-204 | against the reference reading "run the checks in order, stop at the first `false`": accepted exactly when no check fails, and otherwise the verdict is that of the first failing check |
| ContactForm.LaterFieldsIgnored | js/script.js:179-201 | checks after the first failing one are never evaluated: when the form is refused by check i, changing only the fields read after check i leaves the verdict unchanged |
| ContactForm.PaddedEmailRefused | js/script.js:185-189 | with a valid name, an e-mail with surrounding white space is refused with the e-mail error |
| ContactForm.ShortNameRefused | js/script.js:179-182 | a name of at most one character (so at most one after trimming) is refused with the name error, whatever the other fields hold |
| ContactForm.AddressWithoutAtRefused | js/script.js:185-189 | with a valid name, an address without '@' is refused with the e-mail error |
| ContactForm.UnpaddedFormAccepted | js/script.js:177-204 | fields without surrounding white space are judged on their plain lengths: a name and subject of at least 2 characters, a matching address and a message of at least 10 characters are accepted with no toast |
| ContactForm.ExampleAccepted | js/script.js:177-204 | name "Jo", e-mail "a@b.co", subject "Hi" and a ten-character message are accepted with no toast |
| ContactForm.HandleSubmit | js/script.js:144-175 | given the verdict and the submission outcome: the loading flag is false at the end of every path; the form is reset exactly when the verdict is valid and the submission resolves, and a reset puts back the declared default values; otherwise the fields are kept; the defaults never change; a refusal adds no toast beyond the one validation showed; after a valid verdict exactly one toast is shown, `success` exactly on reset and `error` otherwise |
| ContactForm.Submit | js/script.js:144-175 | the loading flag is false at the end of every path; the form is reset to its declared default values exactly when validation passes and the submission resolves; otherwise the fields are kept; the defaults never change; exactly one toast is shown, `success` exactly on reset and `error` on every other path |
| ContactForm.SimulatedSubmissionNeverFails | js/script.js:160-171 | with the script's timer-only submission, a valid form is always sent and reset, so the `catch` path is unreachable |
| ContactForm.SubmitToastColour | js/script.js:165-171 | the submit toast is green exactly when the form was reset, and red otherwise |
| Page.Load | js/script.js:33-108 | after load the toggle is enabled; the classes come from the saved value; the store holds "dark" or "light" and `data-theme` equals it; palette 0 is applied; the form shows its declared default values, which are also what a reset restores; no toast is shown and nothing is loading |
| Page.Step | js/script.js:43-175 | each event runs its own handler: a theme click is the click handler, a menu click toggles the menu, a nav-link click closes it, an edit replaces the fields, a submit is the submit handler with its toast; no event writes the store (a theme click included); each event adds at most one toast and keeps the earlier ones; only the lock timer clears the enabled flag and nothing sets it again; a locked page keeps its classes; only the palette timer rotates the palette; the menu flags stay in step; a page that is not loading stays not loading; the form's default values never change; each handler touches only its own state: the classes change only on a theme click, the menu only on a menu or nav-link click, the form only on an edit or a submit; a toast is added exactly on a locked theme click or a submit |
| Page.LockedClickOnlyNotifies | js/script.js:49-54 | after the lock, a theme click only adds the one `info` toast |
| Page.UnlockedClickSwapsMode | js/script.js:49-60 | before the lock and with exactly one mode shown, a theme click swaps the shown mode, writes nothing to the store and shows no toast |
| Page.LoadIsSteady | js/script.js:84-108 | the loaded page has a normalised store, a valid palette state and no loading flag |
| Page.RunKeepsSteady | js/script.js:69-90 | any sequence of events keeps those facts, and the store is never written after load |
| Page.LockOnlyCloses | js/script.js:37-47 | after any event sequence the toggle is enabled exactly when it was enabled before and the lock timer did not fire |
| Page.RunLock | js/script.js:37-47 | no handler other than the lock timer writes `themeToggleEnabled`, so a run of the whole page moves that flag exactly as the flag alone would move |
| Page.LockRunCloses | js/script.js:37-47 | the flag alone ends set exactly when it started set and the lock timer is absent from the events |
| Page.LockedClassesFrozen | js/script.js:49-60 | once locked, no event sequence changes the body classes |
| Page.RunPalette | js/script.js:102-111 | no handler other than the palette timer touches the palette, so a run of the whole page moves it exactly as the palette timer alone would |
| Page.PaletteRunCountsFirings | js/script.js:102-111 | moving the palette alone through an event sequence gives as many rotations as the sequence has palette-timer firings |
| Page.PaletteFollowsTimer | js/script.js:110-111 | after any event sequence, the palette is what that many palette-timer firings alone would give |
| Page.MenuStaysInSync | js/script.js:127-138 | if the two menu flags start equal, they stay equal through any event sequence |
| Page.ToastCountBounded | js/script.js:206-228 | over any event sequence, the number of toasts shown grows by at most one per event and never shrinks |
| Page.ToastsOnlyAccumulate | js/script.js:206-228 | toasts are only appended: the ones shown earlier stay, in order |

## Left out

- DOM lookups, `classList` and `style` mechanics, and the `fa-sun`/`fa-moon` icon swap (js/script.js:58-59) are browser plumbing. Each class that matters is a boolean.
- The cosmetic dimming of the toggle button when the lock fires (opacity and cursor) is left out. Only the flag is modelled.
- Timers and durations (the 20-second lock, the 20-second interval, the 1.5-second submit delay, and the toast's 10 ms / 3 s / 300 ms fade) are not modelled as time. Each timer firing is an explicit event, and the submission outcome is a parameter.
- The toast's lifetime and removal from the document are left out. Toasts are recorded in the order they are shown.
- `localStorage` is a single optional string, not real I/O. The initial `data-theme` attribute is taken as unset.
- Smooth scrolling (js/script.js:114-121) is a browser call. The script has no guard for a missing target, and none is invented here.
- The loader (js/script.js:245-252) is a timer plus a CSS class and is left out.
- Page.Load: the default values the markup declares for the four controls are a parameter, because the markup is not part of this model.
- `FormData` conversion is left out. The four fields are taken as present strings, as the form's markup provides them. Typing into the form is the `Edit` event.
- Page.Step: a submission runs as one step. Events that could interleave during the awaited 1.5 seconds, such as a second submit, edits, or timers, are not modelled between its start and its end.
- ContactForm.ValidateForm: `.length` is taken as the number of characters. JavaScript counts UTF-16 code units, so characters outside the Basic Multilingual Plane would count twice in the script.
- Text.Trim: its own contract only bounds the length. What `trim()` returns is stated by Text.TrimEmptyIffBlank, Text.TrimIsUnpadded and Text.TrimCharacterisation instead, so that every caller of `Trim` does not carry those facts.
- Text.IsWhitespace lists JavaScript's white-space and line-terminator code points. Only its use as a predicate matters to the proofs.
- The palette colours are kept as 24-bit numbers (`#64B5F6` as `0x64B5F6`). The CSS custom-property names are left out.

=== FILE: contact.dfy ===
/** The contact form: `validateForm` (js/script.js lines 177-204) and the
    submit handler around it (lines 140-175). */
module ContactForm {
  import opened Wrappers
  import opened Text
  import opened Email
  import opened Notify

  /** The four named fields the handler reads from the form. */
  datatype FormData = FormData(name: string, email: string, subject: string, message: string)

  /** The checks, in the order the script runs them. */
  datatype Check = NameCheck | EmailCheck | SubjectCheck | MessageCheck

  const CheckOrder: seq<Check> := [NameCheck, EmailCheck, SubjectCheck, MessageCheck]

  /** Whether one check accepts the data, looked at on its own. */
  predicate Passes(c: Check, d: FormData) {
    match c
    case NameCheck => |Trim(d.name)| >= 2
    case EmailCheck => MatchesEmailRegex(d.email)
    case SubjectCheck => |Trim(d.subject)| >= 2
    case MessageCheck => |Trim(d.message)| >= 10
  }

  /** The error toast's text for each check. */
  function ErrorText(c: Check): string {
    match c
    case NameCheck => "Please enter a valid name"
    case EmailCheck => "Please enter a valid email address"
    case SubjectCheck => "Please enter a subject"
    case MessageCheck => "Message must be at least 10 characters long"
  }

  /** Each check's outcome on `d`, in the script's order. */
  function Outcomes(d: FormData): seq<bool> {
    [Passes(NameCheck, d), Passes(EmailCheck, d), Passes(SubjectCheck, d), Passes(MessageCheck, d)]
  }

  /** The position of the first `false`, if any: which check an evaluation
      in order stops at. */
  function FirstFalse(bs: seq<bool>): (r: Option<nat>)
    ensures r == None <==> forall i :: 0 <= i < |bs| ==> bs[i]
    ensures r.Some? ==> r.value < |bs| && !bs[r.value] && forall j :: 0 <= j < r.value ==> bs[j]
  {
    if |bs| == 0 then None
    else if !bs[0] then Some(0)
    else
      match FirstFalse(bs[1..])
      case None => None
      case Some(k) => Some(k + 1)
  }

  /** `FirstFalse` on four outcomes, spelled out. */
  lemma FirstFalseOfFour(a: bool, b: bool, c: bool, e: bool)
    ensures FirstFalse([a, b, c, e]) ==
      if !a then Some(0) else if !b then Some(1) else if !c then Some(2)
      else if !e then Some(3) else None
  {
    var s3 := [e];
    assert s3[1..] == [];
    assert FirstFalse(s3) == if !e then Some(0) else None;
    var s2 := [c, e];
    assert s2[1..] == s3;
    assert FirstFalse(s2) == if !c then Some(0) else if !e then Some(1) else None;
    var s1 := [b, c, e];
    assert s1[1..] == s2;
    assert FirstFalse(s1) == if !b then Some(0) else if !c then Some(1) else if !e then Some(2) else None;
    var s0 := [a, b, c, e];
    assert s0[1..] == s1;
  }

  /** `validateForm`'s boolean result and the toasts it showed. */
  datatype Verdict = Verdict(valid: bool, emitted: seq<Notification>)

  /** The single error toast a failing check shows. */
  function Refusal(c: Check): seq<Notification> {
    [Notification(ErrorText(c), Error)]
  }

  function Fail(c: Check): Verdict {
    Verdict(false, Refusal(c))
  }

  /** `validateForm(data)`: accepts exactly when all four checks pass and
      then shows nothing; otherwise it shows the error toast of the first
      failing check in the script's order (name, e-mail, subject, message) and
      of no other. */
  function ValidateForm(d: FormData): (v: Verdict)
    ensures v.valid <==>
      |Trim(d.name)| >= 2 && MatchesEmailRegex(d.email)
      && |Trim(d.subject)| >= 2 && |Trim(d.message)| >= 10
    ensures v.valid ==> v.emitted == []
    ensures v.emitted == Refusal(NameCheck) <==> |Trim(d.name)| < 2
    ensures v.emitted == Refusal(EmailCheck) <==>
      |Trim(d.name)| >= 2 && !MatchesEmailRegex(d.email)
    ensures v.emitted == Refusal(SubjectCheck) <==>
      |Trim(d.name)| >= 2 && MatchesEmailRegex(d.email) && |Trim(d.subject)| < 2
    ensures v.emitted == Refusal(MessageCheck) <==>
      |Trim(d.name)| >= 2 && MatchesEmailRegex(d.email) && |Trim(d.subject)| >= 2
      && |Trim(d.message)| < 10
  {
    if |Trim(d.name)| < 2 then
      Fail(NameCheck)
    else if !MatchesEmailRegex(d.email) then
      Fail(EmailCheck)
    else if |Trim(d.subject)| < 2 then
      Fail(SubjectCheck)
    else if |Trim(d.message)| < 10 then
      Fail(MessageCheck)
    else
      Verdict(true, [])
  }

  /** Against the reference reading "evaluate the checks in order and stop
      at the first `false`": the form is accepted exactly when no check
      fails, and otherwise the verdict is the first failing check's. */
  lemma ValidateStopsAtFirstFailure(d: FormData)
    ensures ValidateForm(d).valid <==> FirstFalse(Outcomes(d)) == None
    ensures FirstFalse(Outcomes(d)).Some? ==>
      ValidateForm(d) == Fail(CheckOrder[FirstFalse(Outcomes(d)).value])
  {
    FirstFalseOfFour(Passes(NameCheck, d), Passes(EmailCheck, d), Passes(SubjectCheck, d), Passes(MessageCheck, d));
  }

  /** The data agree on every field read by the checks up to and including
      position `i` of the order. */
  predicate AgreeThrough(d: FormData, e: FormData, i: int) {
    && (i >= 0 ==> d.name == e.name)
    && (i >= 1 ==> d.email == e.email)
    && (i >= 2 ==> d.subject == e.subject)
    && (i >= 3 ==> d.message == e.message)
  }

  /** Checks after the first failing one are never evaluated: changing the
      fields they would read does not change the verdict. */
  lemma LaterFieldsIgnored(d: FormData, e: FormData, i: nat)
    requires i < |CheckOrder| && ValidateForm(d) == Fail(CheckOrder[i])
    requires AgreeThrough(d, e, i)
    ensures ValidateForm(e) == ValidateForm(d)
  {
    if i == 0 {
      assert Trim(e.name) == Trim(d.name);
    } else if i == 1 {
      assert e.email == d.email;
    } else if i == 2 {
      assert e.subject == d.subject;
    } else {
      assert e.message == d.message;
    }
  }

  /** The e-mail is tested untrimmed: with a good name, an address with
      surrounding white space is refused with the e-mail error. */
  lemma PaddedEmailRefused(d: FormData)
    requires |Trim(d.name)| >= 2
    requires |d.email| > 0 && (IsWhitespace(d.email[0]) || IsWhitespace(d.email[|d.email| - 1]))
    ensures ValidateForm(d) == Fail(EmailCheck)
  {
    PaddedEmailRejected(d.email);
  }

  /** What the awaited submission does. As written it is a timer that only
      ever resolves, so `Rejected` cannot happen in the script today. */
  datatype Outcome = Resolved | Rejected

  /** The outcome of the script's simulated submission. */
  const SimulatedOutcome: Outcome := Resolved

  /** The form's current fields, the default values its markup declares
      (what `contactForm.reset()` puts back), and the submit button's
      `loading` class. */
  datatype FormUi = FormUi(fields: FormData, defaults: FormData, loading: bool)

  datatype Submission = Submission(ui: FormUi, reset: bool, emitted: seq<Notification>)

  const SentMessage: string := "Message sent successfully!"
  const FailedMessage: string := "Failed to send message. Please try again."

  /** The submit handler's control flow once `validateForm` has returned
      the verdict `v`: set `loading`, return early on a refusal (whose toast
      `validateForm` already showed), otherwise await the submission, show
      one toast, reset the form on success, and clear `loading` on every
      path (the early return and the `finally`). */
  function HandleSubmit(ui: FormUi, v: Verdict, outcome: Outcome): (r: Submission)
    ensures !r.ui.loading
    ensures r.reset <==> v.valid && outcome == Resolved
    ensures r.ui.fields == (if r.reset then ui.defaults else ui.fields)
    ensures r.ui.defaults == ui.defaults
    ensures !v.valid ==> r.emitted == v.emitted
    ensures v.valid ==> |r.emitted| == 1
    ensures v.valid ==> (r.emitted[0].severity == Success <==> r.reset)
    ensures v.valid ==> r.emitted[0].severity != Info
  {
    var busy := ui.(loading := true);
    if !v.valid then
      Submission(busy.(loading := false), false, v.emitted)
    else
      match outcome
      case Resolved =>
        Submission(FormUi(busy.defaults, busy.defaults, false), true,
                   [Notification(SentMessage, Success)])
      case Rejected =>
        Submission(busy.(loading := false), false, [Notification(FailedMessage, Error)])
  }

  /** The whole submit handler: validate the fields, then run the control
      flow above. Exactly one toast is shown on every path, `success`
      exactly when the form is reset and `error` otherwise. */
  function Submit(ui: FormUi, outcome: Outcome): (r: Submission)
    ensures !r.ui.loading
    ensures r.reset <==> ValidateForm(ui.fields).valid && outcome == Resolved
    ensures r.ui.fields == (if r.reset then ui.defaults else ui.fields)
    ensures r.ui.defaults == ui.defaults
    ensures |r.emitted| == 1
    ensures r.emitted[0].severity == Success <==> r.reset
    ensures r.emitted[0].severity != Info
  {
    HandleSubmit(ui, ValidateForm(ui.fields), outcome)
  }

  /** Under the script's simulated submission, a valid form is always sent
      and reset; the error path of the `catch` is unreachable. */
  lemma SimulatedSubmissionNeverFails(ui: FormUi)
    requires ValidateForm(ui.fields).valid
    ensures Submit(ui, SimulatedOutcome).reset
    ensures Submit(ui, SimulatedOutcome).emitted == [Notification(SentMessage, Success)]
  {
  }

  /** The toast's colour tells the user whether the form was sent. */
  lemma SubmitToastColour(ui: FormUi, outcome: Outcome)
    ensures var r := Submit(ui, outcome);
      Background(r.emitted[0].severity) == (if r.reset then SuccessGreen else FailureRed)
  {
  }

  /** Fields typed without surrounding white space are judged on their
      plain lengths: long enough fields and a matching address are
      accepted with no toast. */
  lemma UnpaddedFormAccepted(d: FormData)
    requires Unpadded(d.name) && |d.name| >= 2
    requires MatchesEmailRegex(d.email)
    requires Unpadded(d.subject) && |d.subject| >= 2
    requires Unpadded(d.message) && |d.message| >= 10
    ensures ValidateForm(d) == Verdict(true, [])
  {
    TrimKeepsUnpadded(d.name);
    TrimKeepsUnpadded(d.subject);
    TrimKeepsUnpadded(d.message);
  }

  /** The example form of the contact page's happy path is accepted. */
  lemma ExampleAccepted()
    ensures ValidateForm(FormData("Jo", "a@b.co", "Hi", "0123456789")) == Verdict(true, [])
  {
    ExampleAddressMatches();
    UnpaddedFormAccepted(FormData("Jo", "a@b.co", "Hi", "0123456789"));
  }

  /** A name of at most one character is refused first, whatever the other
      fields hold. */
  lemma ShortNameRefused(d: FormData)
    requires |d.name| <= 1
    ensures ValidateForm(d) == Fail(NameCheck)
  {
    assert |Trim(d.name)| <= 1;
  }

  /** An address without '@' is refused with the e-mail error. */
  lemma AddressWithoutAtRefused(d: FormData)
    requires |Trim(d.name)| >= 2
    requires forall i :: 0 <= i < |d.email| ==> d.email[i] != '@'
    ensures ValidateForm(d) == Fail(EmailCheck)
  {
  }
}

=== FILE: email.dfy ===
/** The contact form's e-mail pattern `^[^\s@]+@[^\s@]+\.[^\s@]+$`
    (js/script.js line 185), stated three ways: as the split the regular
    expression describes, as a list of plain conditions on the string, and as
    a deterministic automaton that scans the string once. */
module Email {
  import opened Text

  /** A character of the class `[^\s@]`. */
  predicate IsAtomChar(c: char) {
    !IsWhitespace(c) && c != '@'
  }

  /** A run of `[^\s@]` characters (possibly empty). */
  predicate AllAtom(s: string) {
    forall i :: 0 <= i < |s| ==> IsAtomChar(s[i])
  }

  /** The regular expression read literally: `s` splits as
      local + "@" + host + "." + tld where the three parts are non-empty runs
      of `[^\s@]`. Note that `.` is itself in `[^\s@]`, so the host and the tld
      may contain further dots. */
  predicate MatchesEmailRegex(s: string) {
    exists at, dot | 0 < at < |s| && at + 1 < dot < |s| - 1 :: SplitsAt(s, at, dot)
  }

  /** `s` is local + "@" + host + "." + tld with the '@' at index `at` and
      the '.' at index `dot`, each part a non-empty run of `[^\s@]`. */
  predicate SplitsAt(s: string, at: int, dot: int) {
    && 0 < at && at + 1 < dot < |s| - 1
    && s[at] == '@' && s[dot] == '.'
    && AllAtom(s[..at]) && AllAtom(s[at + 1..dot]) && AllAtom(s[dot + 1..])
  }

  /** The domain part has a '.' with at least one character on each side. */
  predicate HasInnerDot(d: string) {
    exists k :: 0 < k < |d| - 1 && d[k] == '.'
  }

  /** The same language described without the regular expression: no white
      space anywhere, exactly one '@', a non-empty local part before it and a
      domain after it with an inner dot. */
  ghost predicate HasEmailShape(s: string) {
    && (forall i :: 0 <= i < |s| ==> !IsWhitespace(s[i]))
    && multiset(s)['@'] == 1
    && exists at :: 0 < at < |s| && s[at] == '@' && HasInnerDot(s[at + 1..])
  }

  lemma NoAtCount(t: string)
    requires forall i :: 0 <= i < |t| ==> t[i] != '@'
    ensures multiset(t)['@'] == 0
  {
  }

  /** Splitting `s` at index `at` separates the counts of '@'. */
  lemma AtCountSplit(s: string, at: int)
    requires 0 <= at < |s|
    ensures multiset(s)['@'] ==
      multiset(s[..at])['@'] + (if s[at] == '@' then 1 else 0) + multiset(s[at + 1..])['@']
  {
    assert s == s[..at] + [s[at]] + s[at + 1..];
  }

  /** If a second '@' sits next to the one at `at`, there are at least two. */
  lemma TwoAtsCount(s: string, at: int, j: int)
    requires 0 <= at < |s| && 0 <= j < |s| && at != j
    requires s[at] == '@' && s[j] == '@'
    ensures multiset(s)['@'] >= 2
  {
    AtCountSplit(s, at);
    if j < at {
      assert s[..at][j] == '@';
    } else {
      assert s[at + 1..][j - at - 1] == '@';
    }
  }

  /** Every '@'-free and white-space-free character is an atom; a slice of
      an atom run is an atom run. */
  lemma AllAtomSlice(s: string, lo: int, hi: int, lo2: int, hi2: int)
    requires 0 <= lo <= lo2 <= hi2 <= hi <= |s|
    requires AllAtom(s[lo..hi])
    ensures AllAtom(s[lo2..hi2])
  {
    var t := s[lo2..hi2];
    forall j | 0 <= j < |t| ensures IsAtomChar(t[j]) {
      assert t[j] == s[lo..hi][j + lo2 - lo];
    }
  }

  lemma {:induction false} RegexImpliesShape(s: string)
    requires MatchesEmailRegex(s)
    ensures HasEmailShape(s)
  {
    var at, dot :| 0 < at < |s| && at + 1 < dot < |s| - 1 && SplitsAt(s, at, dot);
    forall i | 0 <= i < |s| && i != at ensures IsAtomChar(s[i]) {
      if i < at { assert s[i] == s[..at][i]; }
      else if i < dot { assert s[i] == s[at + 1..dot][i - at - 1]; }
      else if i > dot { assert s[i] == s[dot + 1..][i - dot - 1]; }
    }
    AtCountSplit(s, at);
    NoAtCount(s[..at]);
    NoAtCount(s[at + 1..]);
    var d := s[at + 1..];
    assert d[dot - at - 1] == '.';
    assert HasInnerDot(d);
  }

  lemma {:induction false} ShapeImpliesRegex(s: string)
    requires HasEmailShape(s)
    ensures MatchesEmailRegex(s)
  {
    var at :| 0 < at < |s| && s[at] == '@' && HasInnerDot(s[at + 1..]);
    var d := s[at + 1..];
    var k :| 0 < k < |d| - 1 && d[k] == '.';
    var dot := at + 1 + k;
    forall j | 0 <= j < |s| && j != at ensures IsAtomChar(s[j]) {
      if s[j] == '@' {
        TwoAtsCount(s, at, j);
      }
    }
    assert AllAtom(s[..at]) by {
      var t := s[..at];
      forall j | 0 <= j < |t| ensures IsAtomChar(t[j]) { assert t[j] == s[j]; }
    }
    assert AllAtom(s[at + 1..]) by {
      var t := s[at + 1..];
      forall j | 0 <= j < |t| ensures IsAtomChar(t[j]) { assert t[j] == s[j + at + 1]; }
    }
    AllAtomSlice(s, at + 1, |s|, at + 1, dot);
    AllAtomSlice(s, at + 1, |s|, dot + 1, |s|);
    assert s[dot] == d[k];
    assert SplitsAt(s, at, dot);
  }

  /** The regular expression and the plain description accept the same strings. */
  lemma EmailRegexIffShape(s: string)
    ensures MatchesEmailRegex(s) <==> HasEmailShape(s)
  {
    if MatchesEmailRegex(s) { RegexImpliesShape(s); }
    if HasEmailShape(s) { ShapeImpliesRegex(s); }
  }

  /** Leading or trailing white space is rejected: the address is not trimmed
      before the pattern is applied. */
  lemma PaddedEmailRejected(s: string)
    requires |s| > 0 && (IsWhitespace(s[0]) || IsWhitespace(s[|s| - 1]))
    ensures !MatchesEmailRegex(s)
  {
    EmailRegexIffShape(s);
  }

  /** A short address with a two-letter top-level domain matches. */
  lemma ExampleAddressMatches()
    ensures MatchesEmailRegex("a@b.co")
  {
    var e := "a@b.co";
    assert AllAtom(e[..1]) && AllAtom(e[2..3]) && AllAtom(e[4..]);
    assert SplitsAt(e, 1, 3);
  }

  /** An address without an '@' does not match. */
  lemma AddressWithoutAtFails(s: string)
    requires forall i :: 0 <= i < |s| ==> s[i] != '@'
    ensures !MatchesEmailRegex(s)
  {
  }

  /** States of a deterministic automaton for the pattern. */
  datatype Scan =
    | Start     // nothing read
    | Local     // a non-empty local part, no '@' yet
    | AfterAt   // local part and '@'
    | Host      // domain non-empty, no '.' after its first character
    | HostDot   // domain ends with its first '.' after its first character
    | Tld       // domain has a '.' with a character on each side: accepting
    | Reject    // no extension can match

  function Next(q: Scan, c: char): Scan {
    if !IsAtomChar(c) && c != '@' then Reject
    else match q
      case Start => if c == '@' then Reject else Local
      case Local => if c == '@' then AfterAt else Local
      case AfterAt => if c == '@' then Reject else Host
      case Host => if c == '@' then Reject else if c == '.' then HostDot else Host
      case HostDot => if c == '@' then Reject else Tld
      case Tld => if c == '@' then Reject else Tld
      case Reject => Reject
  }

  /** A string every matching string has as a prefix shape: no white space,
      not starting with '@', at most one '@'. */
  ghost predicate Viable(t: string) {
    && (forall j :: 0 <= j < |t| ==> !IsWhitespace(t[j]))
    && (|t| > 0 ==> t[0] != '@')
    && (forall j, k :: 0 <= j < k < |t| && t[j] == '@' ==> t[k] != '@')
  }

  lemma ViablePrefix(t: string, n: int)
    requires 0 <= n <= |t| && Viable(t)
    ensures Viable(t[..n])
  {
  }

  lemma RegexImpliesViable(s: string)
    ensures MatchesEmailRegex(s) ==> Viable(s)
  {
    if !MatchesEmailRegex(s) { return; }
    EmailRegexIffShape(s);
    var at :| 0 < at < |s| && s[at] == '@' && HasInnerDot(s[at + 1..]);
    forall j, k | 0 <= j < k < |s| && s[j] == '@' ensures s[k] != '@' {
      if s[k] == '@' { TwoAtsCount(s, j, k); }
    }
    if s[0] == '@' { TwoAtsCount(s, 0, at); }
  }

  /** What the automaton's state says about the prefix `s[..i]` it has read;
      `at` is the position of the '@' once one has been read. */
  ghost predicate Tracks(s: string, i: int, q: Scan, at: int) {
    && 0 <= i <= |s|
    && (q == Start ==> i == 0)
    && (q == Local ==> i > 0 && AllAtom(s[..i]))
    && (q in {AfterAt, Host, HostDot, Tld} ==>
          0 < at < i && s[at] == '@' && AllAtom(s[..at]) && AllAtom(s[at + 1..i]))
    && (q == AfterAt ==> i == at + 1)
    && (q == Host ==> i > at + 1 && forall j :: at + 2 <= j < i ==> s[j] != '.')
    && (q == HostDot ==>
          i >= at + 3 && s[i - 1] == '.' && forall j :: at + 2 <= j < i - 1 ==> s[j] != '.')
    && (q == Tld ==> exists k :: at + 2 <= k < i - 1 && s[k] == '.')
    && (q == Reject ==> !Viable(s[..i]))
  }

  /** Reading one more character keeps `Tracks`; the '@' position is
      recorded when the automaton leaves `Local` for `AfterAt`. */
  lemma TracksStep(s: string, i: int, q: Scan, at: int)
    requires Tracks(s, i, q, at) && i < |s|
    ensures Tracks(s, i + 1, Next(q, s[i]), if q == Local && s[i] == '@' then i else at)
  {
    if Next(q, s[i]) == Reject {
      TracksIntoReject(s, i, q, at);
    } else if q == Local || q == Start {
      assert s[..i + 1] == s[..i] + [s[i]];
    } else {
      assert s[at + 1..i + 1] == s[at + 1..i] + [s[i]];
    }
  }

  /** A character that sends the automaton to `Reject` makes the prefix
      read so far impossible to extend into a match. */
  lemma TracksIntoReject(s: string, i: int, q: Scan, at: int)
    requires Tracks(s, i, q, at) && i < |s| && Next(q, s[i]) == Reject
    ensures !Viable(s[..i + 1])
  {
    var t := s[..i + 1];
    assert t[i] == s[i];
    if q == Reject {
      assert t[..i] == s[..i];
      if Viable(t) {
        ViablePrefix(t, i);
      }
    } else if IsWhitespace(s[i]) {
    } else if q == Start {
      assert t[0] == '@';
    } else {
      assert t[at] == '@';
    }
  }

  /** Runs the automaton over `s`; the result is the regular expression's
      `test(s)`. */
  method MatchEmail(s: string) returns (ok: bool)
    ensures ok <==> MatchesEmailRegex(s)
  {
    var q := Start;
    var i := 0;
    ghost var at := 0;
    while i < |s|
      invariant Tracks(s, i, q, at)
    {
      TracksStep(s, i, q, at);
      if q == Local && s[i] == '@' {
        at := i;
      }
      q := Next(q, s[i]);
      i := i + 1;
    }
    assert s[..i] == s;
    RegexImpliesViable(s);
    ok := q == Tld;
    if ok {
      ghost var k :| at + 2 <= k < i - 1 && s[k] == '.';
      AllAtomSlice(s, at + 1, |s|, at + 1, k);
      AllAtomSlice(s, at + 1, |s|, k + 1, |s|);
      assert SplitsAt(s, at, k);
    }
  }
}

=== FILE: menu.dfy ===
/** The mobile navigation menu: the `active` class on the toggle button and
    on the navigation panel (js/script.js lines 123-138). */
module MobileMenu {

  datatype Menu = Menu(buttonActive: bool, panelActive: bool)

  /** Both open or both closed. */
  predicate InSync(m: Menu) {
    m.buttonActive == m.panelActive
  }

  /** A click on the toggle button flips each class independently. */
  function ToggleMenu(m: Menu): (r: Menu)
    ensures r.buttonActive != m.buttonActive && r.panelActive != m.panelActive
  {
    Menu(!m.buttonActive, !m.panelActive)
  }

  /** A click on any navigation link removes both classes. */
  function CloseMenu(m: Menu): (r: Menu)
    ensures !r.buttonActive && !r.panelActive
  {
    Menu(false, false)
  }

  /** Two toggles restore the original state. */
  lemma ToggleTwice(m: Menu)
    ensures ToggleMenu(ToggleMenu(m)) == m
  {
  }

  /** Both events keep the two flags in step, and a toggle keeps them out of
      step when they already were (the classes are flipped, not set). */
  lemma EventsPreserveSync(m: Menu)
    ensures InSync(ToggleMenu(m)) <==> InSync(m)
    ensures InSync(CloseMenu(m))
  {
  }

  /** Closing an already closed menu changes nothing. */
  lemma CloseIdempotent(m: Menu)
    ensures CloseMenu(CloseMenu(m)) == CloseMenu(m)
  {
  }
}

=== FILE: notify.dfy ===
/** Toast notifications: what `showNotification(message, type)` records and
    the background colour it picks (js/script.js lines 206-242). */
module Notify {

  /** The `type` argument; the script passes only these three strings. */
  datatype Severity = Success | Error | Info

  datatype Notification = Notification(message: string, severity: Severity)

  const SuccessGreen: string := "#4CAF50"
  const FailureRed: string := "#f44336"

  /** The `type` string the script passes, which also becomes a CSS class. */
  function SeverityName(s: Severity): string {
    match s
    case Success => "success"
    case Error => "error"
    case Info => "info"
  }

  /** The toast's background: green for success and red for everything else,
      so an `info` toast is shown in the same red as an `error` one. */
  function Background(s: Severity): (colour: string)
    ensures colour == SuccessGreen <==> SeverityName(s) == "success"
    ensures colour == SuccessGreen || colour == FailureRed
  {
    if s == Success then SuccessGreen else FailureRed
  }

  /** Info and error toasts cannot be told apart by colour. */
  lemma InfoLooksLikeError()
    ensures Background(Info) == Background(Error) != Background(Success)
  {
  }
}

=== FILE: page.dfy ===
/** The whole page as one state, the load sequence of the script, and one
    step function per event the script listens to. Properties that span
    several events are proved over arbitrary event sequences. */
module Page {
  import opened Wrappers
  import opened Notify
  import opened Theme
  import Palette
  import opened MobileMenu
  import opened ContactForm

  datatype Page = Page(
    toggle: ThemeToggle,      // body classes and `themeToggleEnabled`
    storage: Storage,         // the `theme` key and `data-theme`
    palette: Palette.Rotator, // `currentPaletteIndex` and the applied palette
    menu: Menu,               // the two `active` classes
    form: FormUi,             // the form's fields, their defaults and `loading`
    shown: seq<Notification>) // every toast shown so far, oldest first

  /** The events the script reacts to after loading. `Edit` stands for the
      user typing into the form, which the browser handles. */
  datatype Event =
    | ThemeClick
    | LockTimer
    | PaletteTimer
    | MenuClick
    | NavLinkClick
    | Edit(fields: FormData)
    | SubmitForm(outcome: Outcome)

  /** The script's top level, in order: palette index 0, toggle enabled,
      classes from the saved value, the storage initialiser, palette 0
      applied. `classes`, `menu` and `fields` are what the markup holds
      (`fields` being the form's declared default values, which a reset
      restores); `saved` is what the store holds under `theme`. */
  function Load(classes: BodyClasses, menu: Menu, fields: FormData, saved: Option<string>): (p: Page)
    ensures p.toggle.enabled
    ensures p.toggle.classes == ApplySavedTheme(classes, saved)
    ensures KnownTheme(p.storage.theme) && p.storage.dataTheme == p.storage.theme
    ensures p.storage.theme == Some("dark") <==> saved == Some("dark")
    ensures Palette.Valid(p.palette) && p.palette.index == 0
    ensures p.menu == menu && p.form == FormUi(fields, fields, false) && p.shown == []
  {
    var toggle := Unlocked(ApplySavedTheme(classes, saved));
    var storage := InitTheme(Storage(saved, None));
    Page(toggle, storage, Palette.Initial(), menu, FormUi(fields, fields, false), [])
  }

  /** One event. */
  function Step(p: Page, e: Event): (q: Page)
    ensures q.storage == p.storage
    ensures |p.shown| <= |q.shown| <= |p.shown| + 1 && q.shown[..|p.shown|] == p.shown
    ensures q.toggle.enabled <==> p.toggle.enabled && e != LockTimer
    ensures !p.toggle.enabled ==> q.toggle.classes == p.toggle.classes
    ensures Palette.Valid(p.palette) ==> Palette.Valid(q.palette)
    ensures q.palette == if e == PaletteTimer then Palette.Rotate(p.palette) else p.palette
    ensures InSync(p.menu) ==> InSync(q.menu)
    ensures !p.form.loading ==> !q.form.loading
    ensures q.form.defaults == p.form.defaults
    ensures e != ThemeClick ==> q.toggle.classes == p.toggle.classes
    ensures e != MenuClick && e != NavLinkClick ==> q.menu == p.menu
    ensures !e.Edit? && !e.SubmitForm? ==> q.form == p.form
    ensures |q.shown| == |p.shown| + 1 <==> (e == ThemeClick && !p.toggle.enabled) || e.SubmitForm?
    ensures e == ThemeClick ==> q.toggle == Click(p.toggle).toggle && q.shown == p.shown + Click(p.toggle).emitted
    ensures e == MenuClick ==> q.menu == ToggleMenu(p.menu)
    ensures e == NavLinkClick ==> q.menu == CloseMenu(p.menu)
    ensures e.Edit? ==> q.form.fields == e.fields
    ensures e.SubmitForm? ==> q.form == Submit(p.form, e.outcome).ui && q.shown == p.shown + Submit(p.form, e.outcome).emitted
  {
    match e
    case ThemeClick =>
      var r := Click(p.toggle);
      p.(toggle := r.toggle, shown := p.shown + r.emitted)
    case LockTimer =>
      p.(toggle := LockTimerFires(p.toggle))
    case PaletteTimer =>
      p.(palette := Palette.Rotate(p.palette))
    case MenuClick =>
      p.(menu := ToggleMenu(p.menu))
    case NavLinkClick =>
      p.(menu := CloseMenu(p.menu))
    case Edit(fields) =>
      p.(form := p.form.(fields := fields))
    case SubmitForm(outcome) =>
      var r := Submit(p.form, outcome);
      p.(form := r.ui, shown := p.shown + r.emitted)
  }

  /** After the lock, a theme click only adds the "locked" info toast. */
  lemma LockedClickOnlyNotifies(p: Page)
    requires !p.toggle.enabled
    ensures Step(p, ThemeClick) == p.(shown := p.shown + [Notification(LockedMessage, Info)])
  {
  }

  /** Before the lock, a theme click swaps the shown mode and writes nothing
      to the store. */
  lemma UnlockedClickSwapsMode(p: Page)
    requires p.toggle.enabled && OneMode(p.toggle.classes)
    ensures var q := Step(p, ThemeClick);
      && OneMode(q.toggle.classes) && q.toggle.classes.darkMode == p.toggle.classes.lightMode
      && q.storage == p.storage && q.shown == p.shown
  {
    ClickSwapsMode(p.toggle);
  }

  /** Events handled one after the other. */
  function Run(p: Page, events: seq<Event>): Page
    decreases |events|
  {
    if |events| == 0 then p else Run(Step(p, events[0]), events[1..])
  }

  /** What holds after load and is kept by every event. */
  predicate Steady(p: Page) {
    && KnownTheme(p.storage.theme) && p.storage.dataTheme == p.storage.theme
    && Palette.Valid(p.palette)
    && !p.form.loading
  }

  lemma LoadIsSteady(classes: BodyClasses, menu: Menu, fields: FormData, saved: Option<string>)
    ensures Steady(Load(classes, menu, fields, saved))
  {
  }

  /** No event writes the store: only load does. In particular a theme
      click changes the body classes but never the stored preference. */
  lemma {:induction false} RunKeepsSteady(p: Page, events: seq<Event>)
    requires Steady(p)
    ensures Steady(Run(p, events))
    ensures Run(p, events).storage == p.storage
    decreases |events|
  {
    if |events| > 0 {
      RunKeepsSteady(Step(p, events[0]), events[1..]);
    }
  }

  /** The lock only ever goes from enabled to locked: the toggle is enabled
      after a run exactly when it was before and the timer did not fire. */
  lemma LockOnlyCloses(p: Page, events: seq<Event>)
    ensures Run(p, events).toggle.enabled <==> p.toggle.enabled && LockTimer !in events
  {
    RunLock(p, events);
    LockRunCloses(p.toggle.enabled, events);
  }

  /** `themeToggleEnabled` alone under `events`: cleared by the lock timer,
      untouched by every other event. */
  function LockRun(enabled: bool, events: seq<Event>): bool
    decreases |events|
  {
    if |events| == 0 then enabled
    else LockRun(enabled && events[0] != LockTimer, events[1..])
  }

  /** No handler other than the lock timer writes `themeToggleEnabled`, so a
      run of the whole page moves it exactly as the flag alone would move. */
  lemma {:induction false} RunLock(p: Page, events: seq<Event>)
    ensures Run(p, events).toggle.enabled == LockRun(p.toggle.enabled, events)
    decreases |events|
  {
    if |events| > 0 {
      RunLock(Step(p, events[0]), events[1..]);
    }
  }

  /** The flag alone ends set exactly when it started set and the timer is
      absent from `events`. */
  lemma {:induction false} LockRunCloses(enabled: bool, events: seq<Event>)
    ensures LockRun(enabled, events) <==> enabled && LockTimer !in events
    decreases |events|
  {
    if |events| > 0 {
      LockRunCloses(enabled && events[0] != LockTimer, events[1..]);
      assert events == [events[0]] + events[1..];
    }
  }

  /** Once locked, no sequence of events changes the body classes. */
  lemma {:induction false} LockedClassesFrozen(p: Page, events: seq<Event>)
    requires !p.toggle.enabled
    ensures Run(p, events).toggle.classes == p.toggle.classes
    decreases |events|
  {
    if |events| > 0 {
      LockedClassesFrozen(Step(p, events[0]), events[1..]);
    }
  }

  /** How many times the palette timer fires in `events`. */
  function TimerFirings(events: seq<Event>): nat
    decreases |events|
  {
    if |events| == 0 then 0
    else (if events[0] == PaletteTimer then 1 else 0) + TimerFirings(events[1..])
  }

  /** The palette alone under `events`: rotated once per palette-timer
      firing, untouched by every other event. */
  function PaletteRun(r: Palette.Rotator, events: seq<Event>): Palette.Rotator
    decreases |events|
  {
    if |events| == 0 then r
    else PaletteRun(if events[0] == PaletteTimer then Palette.Rotate(r) else r, events[1..])
  }

  /** No other handler reads or writes the palette, so a run of the whole
      page moves it exactly as the palette alone would move. */
  lemma {:induction false} RunPalette(p: Page, events: seq<Event>)
    ensures Run(p, events).palette == PaletteRun(p.palette, events)
    decreases |events|
  {
    if |events| > 0 {
      RunPalette(Step(p, events[0]), events[1..]);
    }
  }

  /** Other events interleaved with the timer firings do not matter: only
      how many times it fired does. */
  lemma {:induction false} PaletteRunCountsFirings(r: Palette.Rotator, events: seq<Event>)
    ensures PaletteRun(r, events) == Palette.RotateTimes(r, TimerFirings(events))
    decreases |events|
  {
    if |events| > 0 {
      var fired := events[0] == PaletteTimer;
      var r' := if fired then Palette.Rotate(r) else r;
      PaletteRunCountsFirings(r', events[1..]);
      Palette.RotateTimesAfter(r, r', fired, TimerFirings(events[1..]));
    }
  }

  /** Only the palette timer moves the palette: after any run the page
      shows what that many firings alone would show. */
  lemma PaletteFollowsTimer(p: Page, events: seq<Event>)
    ensures Run(p, events).palette == Palette.RotateTimes(p.palette, TimerFirings(events))
  {
    RunPalette(p, events);
    PaletteRunCountsFirings(p.palette, events);
  }

  /** A menu opened and closed only through its own handlers stays in sync. */
  lemma {:induction false} MenuStaysInSync(p: Page, events: seq<Event>)
    requires InSync(p.menu)
    ensures InSync(Run(p, events).menu)
    decreases |events|
  {
    if |events| > 0 {
      MenuStaysInSync(Step(p, events[0]), events[1..]);
    }
  }

  /** Each event shows at most one toast, and none is ever taken away. */
  lemma {:induction false} ToastCountBounded(p: Page, events: seq<Event>)
    ensures var q := Run(p, events);
      |p.shown| <= |q.shown| <= |p.shown| + |events|
    decreases |events|
  {
    if |events| > 0 {
      ToastCountBounded(Step(p, events[0]), events[1..]);
    }
  }

  /** Toasts are only ever appended: the earlier ones stay, in order. */
  lemma {:induction false} ToastsOnlyAccumulate(p: Page, events: seq<Event>)
    ensures var q := Run(p, events);
      |p.shown| <= |q.shown| && q.shown[..|p.shown|] == p.shown
    decreases |events|
  {
    if |events| > 0 {
      var q := Step(p, events[0]);
      ToastsOnlyAccumulate(q, events[1..]);
      var r := Run(q, events[1..]);
      assert r.shown[..|p.shown|] == r.shown[..|q.shown|][..|p.shown|];
    }
  }
}

=== FILE: palette.dfy ===
/** The decorative colour rotation: four fixed light palettes, an index into
    them and the palette currently applied to the page's custom properties
    (js/script.js lines 1-34 and 92-111). */
module Palette {

  /** A CSS colour `#RRGGBB`, held as the 24-bit number it spells. */
  type Rgb = nat

  /** The five colours `applyColorPalette` copies into CSS custom properties. */
  datatype Palette = Palette(primary: Rgb, secondary: Rgb, background: Rgb, text: Rgb, card: Rgb)

  /** `lightColorPalettes`, in the script's order. */
  const LightPalettes: seq<Palette> := [
    Palette(0x64B5F6, 0x81C784, 0xF5F5F5, 0x333333, 0xFFFFFF),
    Palette(0xFFB74D, 0xFF8A65, 0xFFF3E0, 0x424242, 0xFFFFFF),
    Palette(0xBA68C8, 0xF06292, 0xF3E5F5, 0x424242, 0xFFFFFF),
    Palette(0x4FC3F7, 0x4DD0E1, 0xE1F5FE, 0x424242, 0xFFFFFF)
  ]

  /** `currentPaletteIndex` together with the palette last applied. */
  datatype Rotator = Rotator(index: nat, applied: Palette)

  /** The index is in range and the page shows the palette it names. */
  predicate Valid(r: Rotator) {
    r.index < |LightPalettes| && r.applied == LightPalettes[r.index]
  }

  /** State at load: index 0 and palette 0 applied. */
  function Initial(): (r: Rotator)
    ensures Valid(r) && r.index == 0
  {
    Rotator(0, LightPalettes[0])
  }

  /** `rotateColorPalette`: advance the index modulo the number of palettes,
      then apply the palette it now names. Any index is accepted: the modulus
      brings it back into range. */
  function Rotate(r: Rotator): (r': Rotator)
    ensures Valid(r')
    ensures r'.index == (r.index + 1) % 4
  {
    var i := (r.index + 1) % |LightPalettes|;
    Rotator(i, LightPalettes[i])
  }

  /** `n` firings of the 20-second interval. */
  function RotateTimes(r: Rotator, n: nat): Rotator
    decreases n
  {
    if n == 0 then r else RotateTimes(Rotate(r), n - 1)
  }

  /** A step that fires the timer or not, followed by `n` firings, is
      `n + 1` or `n` firings. */
  lemma RotateTimesAfter(r: Rotator, r': Rotator, fired: bool, n: nat)
    requires r' == if fired then Rotate(r) else r
    ensures RotateTimes(r', n) == RotateTimes(r, (if fired then 1 else 0) + n)
  {
    if fired {
      assert RotateTimes(r, 1 + n) == RotateTimes(Rotate(r), n);
    }
  }

  /** After `n` firings from a valid state the index has advanced by `n`
      modulo four and the applied palette still matches it. */
  lemma {:induction false} RotateTimesIndex(r: Rotator, n: nat)
    requires Valid(r)
    ensures Valid(RotateTimes(r, n))
    ensures RotateTimes(r, n).index == (r.index + n) % 4
    decreases n
  {
    if n > 0 {
      RotateTimesIndex(Rotate(r), n - 1);
      ModAddLeft(r.index + 1, n - 1);
    }
  }

  /** Reducing the left summand first does not change a sum modulo four. */
  lemma ModAddLeft(a: nat, b: nat)
    ensures (a % 4 + b) % 4 == (a + b) % 4
  {
    var q := a / 4;
    assert a == 4 * q + a % 4;
    assert a + b == 4 * q + (a % 4 + b);
  }

  /** A valid state is determined by its index. */
  lemma ValidByIndex(r: Rotator, r': Rotator)
    requires Valid(r) && Valid(r') && r.index == r'.index
    ensures r == r'
  {
  }

  /** Every multiple of four rotations, four in particular, returns to the
      starting state. */
  lemma RotationsCycle(r: Rotator, n: nat)
    requires Valid(r) && n % 4 == 0
    ensures RotateTimes(r, n) == r
  {
    RotateTimesIndex(r, n);
    assert (r.index + n) % 4 == r.index;
    ValidByIndex(RotateTimes(r, n), r);
  }

  /** The cycle is exactly four long: fewer firings never come back. */
  lemma ShorterRotationsDiffer(r: Rotator, n: nat)
    requires Valid(r) && 0 < n < 4
    ensures RotateTimes(r, n).index != r.index
  {
    RotateTimesIndex(r, n);
  }

  /** From load, the `n`-th firing shows palette `n mod 4`. */
  lemma PaletteAfterTicks(n: nat)
    ensures RotateTimes(Initial(), n).applied == LightPalettes[n % 4]
  {
    RotateTimesIndex(Initial(), n);
  }
}

=== FILE: text.dfy ===
/** Character classes and `String.prototype.trim` over `seq<char>`. */
module Text {

  /** The code points JavaScript treats as white space or line terminators.
      `trim` strips exactly these, and the regular-expression class `\s`
      matches exactly these. The rest of the model only relies on the
      predicate, not on the particular set. */
  predicate IsWhitespace(c: char) {
    var n := c as int;
    || n == 0x09 || n == 0x0A || n == 0x0B || n == 0x0C || n == 0x0D
    || n == 0x20 || n == 0xA0 || n == 0x1680
    || (0x2000 <= n <= 0x200A)
    || n == 0x2028 || n == 0x2029 || n == 0x202F || n == 0x205F
    || n == 0x3000 || n == 0xFEFF
  }

  /** Every character of `s` is white space. */
  predicate AllWhitespace(s: string) {
    forall i :: 0 <= i < |s| ==> IsWhitespace(s[i])
  }

  /** `s` neither starts nor ends with white space (vacuously true when empty). */
  predicate Unpadded(s: string) {
    |s| == 0 || (!IsWhitespace(s[0]) && !IsWhitespace(s[|s| - 1]))
  }

  /** Drops the longest all-white-space prefix. That what it drops is all
      white space and what it keeps does not start with any is
      `TrimStartDropsBlank`. */
  function TrimStart(s: string): (r: string)
    ensures |r| <= |s| && r == s[|s| - |r|..]
  {
    if |s| > 0 && IsWhitespace(s[0]) then TrimStart(s[1..]) else s
  }

  /** Drops the longest all-white-space suffix; see `TrimEndDropsBlank`. */
  function TrimEnd(s: string): (r: string)
    ensures |r| <= |s| && r == s[..|r|]
  {
    if |s| > 0 && IsWhitespace(s[|s| - 1]) then TrimEnd(s[..|s| - 1]) else s
  }

  /** What `TrimStart` keeps does not start with white space. */
  lemma {:induction false} TrimStartStops(s: string)
    ensures var r := TrimStart(s); |r| == 0 || !IsWhitespace(r[0])
    decreases |s|
  {
    if |s| > 0 && IsWhitespace(s[0]) {
      TrimStartStops(s[1..]);
    }
  }

  /** What `TrimStart` drops is all white space. */
  lemma {:induction false} TrimStartDropsBlank(s: string)
    ensures AllWhitespace(s[..|s| - |TrimStart(s)|])
    decreases |s|
  {
    if |s| > 0 && IsWhitespace(s[0]) {
      var t := s[1..];
      TrimStartDropsBlank(t);
      BlankPrefixGrows(s, |t| - |TrimStart(t)|);
    }
  }

  /** A white-space prefix of `s[1..]`, preceded by a white-space `s[0]`. */
  lemma BlankPrefixGrows(s: string, k: nat)
    requires 0 < |s| && IsWhitespace(s[0]) && k < |s|
    requires AllWhitespace(s[1..][..k])
    ensures AllWhitespace(s[..k + 1])
  {
    var d := s[..k + 1];
    var d' := s[1..][..k];
    forall i | 0 <= i < |d| ensures IsWhitespace(d[i]) {
      if i > 0 {
        assert d[i] == d'[i - 1];
      }
    }
  }

  /** What `TrimEnd` keeps does not end with white space. */
  lemma {:induction false} TrimEndStops(s: string)
    ensures var r := TrimEnd(s); |r| == 0 || !IsWhitespace(r[|r| - 1])
    decreases |s|
  {
    if |s| > 0 && IsWhitespace(s[|s| - 1]) {
      TrimEndStops(s[..|s| - 1]);
    }
  }

  /** What `TrimEnd` drops is all white space. */
  lemma {:induction false} TrimEndDropsBlank(s: string)
    ensures AllWhitespace(s[|TrimEnd(s)|..])
    decreases |s|
  {
    if |s| > 0 && IsWhitespace(s[|s| - 1]) {
      var t := s[..|s| - 1];
      TrimEndDropsBlank(t);
      BlankSuffixGrows(s, |TrimEnd(t)|);
    }
  }

  /** A white-space suffix of `s` without its last character, followed by a
      white-space last character. */
  lemma BlankSuffixGrows(s: string, k: nat)
    requires 0 < |s| && IsWhitespace(s[|s| - 1]) && k < |s|
    requires AllWhitespace(s[..|s| - 1][k..])
    ensures AllWhitespace(s[k..])
  {
    var d := s[k..];
    var d' := s[..|s| - 1][k..];
    forall i | 0 <= i < |d| ensures IsWhitespace(d[i]) {
      if i < |d'| {
        assert d[i] == d'[i];
      }
    }
  }

  /** JavaScript's `s.trim()`. What the result is lives in lemmas, so
      that callers do not pay for it: `TrimEmptyIffBlank`, `TrimIsUnpadded`
      and the characterisation `TrimCharacterisation`. */
  function Trim(s: string): (r: string)
    ensures |r| <= |s|
  {
    TrimEnd(TrimStart(s))
  }

  /** Trimming leaves nothing exactly when the input is all white space. */
  lemma TrimEmptyIffBlank(s: string)
    ensures |Trim(s)| == 0 <==> AllWhitespace(s)
  {
    var t := TrimStart(s);
    var r := TrimEnd(t);
    if |r| == 0 {
      TrimStartDropsBlank(s);
      TrimEndDropsBlank(t);
      assert s == s[..|s| - |t|] + t;
      assert AllWhitespace(t[|r|..]);
    } else {
      TrimStartStops(s);
      TrimEndStops(t);
      assert r[0] == s[|s| - |t|];
    }
  }

  /** The result of `trim` neither starts nor ends with white space. */
  lemma TrimIsUnpadded(s: string)
    ensures Unpadded(Trim(s))
  {
    var t := TrimStart(s);
    var r := TrimEnd(t);
    if |r| > 0 {
      TrimStartStops(s);
      TrimEndStops(t);
      assert r[0] == t[0];
    }
  }

  /** `TrimStart` skips exactly a white-space prefix that is followed by a
      non-white-space character (or by nothing). */
  lemma {:induction false} TrimStartSkips(p: string, t: string)
    requires AllWhitespace(p)
    requires |t| == 0 || !IsWhitespace(t[0])
    ensures TrimStart(p + t) == t
    decreases |p|
  {
    if |p| > 0 {
      assert (p + t)[1..] == p[1..] + t;
      TrimStartSkips(p[1..], t);
    } else {
      assert p + t == t;
    }
  }

  /** `TrimEnd` skips exactly a white-space suffix that is preceded by a
      non-white-space character (or by nothing). */
  lemma {:induction false} TrimEndSkips(t: string, q: string)
    requires AllWhitespace(q)
    requires |t| == 0 || !IsWhitespace(t[|t| - 1])
    ensures TrimEnd(t + q) == t
    decreases |q|
  {
    if |q| > 0 {
      assert (t + q)[..|t + q| - 1] == t + q[..|q| - 1];
      TrimEndSkips(t, q[..|q| - 1]);
    } else {
      assert t + q == t;
    }
  }

  /** Reference characterisation of `trim`: surrounding an unpadded string
      with white space on both sides and trimming gives the string back. */
  lemma TrimCharacterisation(p: string, r: string, q: string)
    requires AllWhitespace(p) && AllWhitespace(q)
    requires Unpadded(r)
    ensures Trim(p + r + q) == r
  {
    if |r| == 0 {
      assert p + r + q == p + q;
      assert AllWhitespace(p + q) by {
        forall i | 0 <= i < |p + q| ensures IsWhitespace((p + q)[i]) {
          if i < |p| { assert (p + q)[i] == p[i]; } else { assert (p + q)[i] == q[i - |p|]; }
        }
      }
      TrimEmptyIffBlank(p + q);
    } else {
      assert p + r + q == p + (r + q);
      TrimStartSkips(p, r + q);
      TrimEndSkips(r, q);
    }
  }

  /** A string without surrounding white space is its own trim. */
  lemma TrimKeepsUnpadded(s: string)
    requires Unpadded(s)
    ensures Trim(s) == s
  {
    TrimStartKeeps(s);
    TrimEndKeeps(s);
  }

  lemma TrimStartKeeps(s: string)
    requires |s| == 0 || !IsWhitespace(s[0])
    ensures TrimStart(s) == s
  {
  }

  lemma TrimEndKeeps(s: string)
    requires |s| == 0 || !IsWhitespace(s[|s| - 1])
    ensures TrimEnd(s) == s
  {
  }

  /** Trimming twice is trimming once. */
  lemma TrimIdempotent(s: string)
    ensures Trim(Trim(s)) == Trim(s)
  {
    TrimIsUnpadded(s);
    TrimKeepsUnpadded(Trim(s));
  }
}

=== FILE: theme.dfy ===
/** Light/dark mode. The script keeps three mechanisms apart, and so does
    this module:
    - the toggle button's click handler, which flips the `dark-mode` and
      `light-mode` classes on the body and is locked out by a one-shot timer
      (js/script.js lines 36-60);
    - the load-time class setup from the saved preference (lines 62-67);
    - the storage functions `setTheme`, `toggleTheme` and the initialiser,
      which write the `theme` key and the `data-theme` attribute
      (lines 69-90). */
module Theme {
  import opened Wrappers
  import opened Notify

  /** The two body classes. */
  datatype BodyClasses = BodyClasses(darkMode: bool, lightMode: bool)

  /** Exactly one of the two modes is shown. */
  predicate OneMode(c: BodyClasses) {
    c.darkMode != c.lightMode
  }

  /** The body classes together with `themeToggleEnabled`. */
  datatype ThemeToggle = ThemeToggle(classes: BodyClasses, enabled: bool)

  datatype ClickResult = ClickResult(toggle: ThemeToggle, emitted: seq<Notification>)

  const LockedMessage: string := "Theme switching is now locked"

  /** State at load, before the lock timer fires. */
  function Unlocked(c: BodyClasses): (t: ThemeToggle)
    ensures t.enabled && t.classes == c
  {
    ThemeToggle(c, true)
  }

  /** The click handler. While enabled it toggles each class on its own;
      once locked it leaves the classes alone and shows one info toast. */
  function Click(t: ThemeToggle): (r: ClickResult)
    ensures r.toggle.enabled == t.enabled
    ensures t.enabled ==> r.toggle.classes.darkMode != t.classes.darkMode
    ensures t.enabled ==> r.toggle.classes.lightMode != t.classes.lightMode
    ensures t.enabled ==> r.emitted == [] && OneMode(r.toggle.classes) == OneMode(t.classes)
    ensures !t.enabled ==> r.toggle == t && r.emitted == [Notification(LockedMessage, Info)]
  {
    if !t.enabled then
      ClickResult(t, [Notification(LockedMessage, Info)])
    else
      var c := t.classes;
      ClickResult(t.(classes := BodyClasses(!c.darkMode, !c.lightMode)), [])
  }

  /** While enabled, a click shows the other mode when exactly one was shown. */
  lemma ClickSwapsMode(t: ThemeToggle)
    requires t.enabled && OneMode(t.classes)
    ensures Click(t).toggle.classes.darkMode == t.classes.lightMode
    ensures Click(t).toggle.classes.lightMode == t.classes.darkMode
  {
  }

  /** While enabled, two clicks restore the original classes. */
  lemma ClickTwice(t: ThemeToggle)
    requires t.enabled
    ensures Click(Click(t).toggle).toggle == t
  {
  }

  /** The classes are toggled one by one, not set: after a saved value that
      is neither "dark" nor "light" has cleared both, the first click turns
      both on. */
  lemma UnknownSavedThenClickShowsBoth(c: BodyClasses)
    ensures Click(Unlocked(ApplySavedTheme(c, Some("blue")))).toggle.classes == BodyClasses(true, true)
  {
  }

  /** The 20-second timer: it only ever clears the flag. */
  function LockTimerFires(t: ThemeToggle): (r: ThemeToggle)
    ensures !r.enabled && r.classes == t.classes
  {
    t.(enabled := false)
  }

  /** The load-time setup: it runs only when the saved value is truthy (a
      missing key and the empty string are falsy) and then forces each class
      to whether the value names it. A saved value other than "dark" or
      "light" therefore clears both classes. */
  function ApplySavedTheme(c: BodyClasses, saved: Option<string>): (r: BodyClasses)
    ensures saved == None || saved == Some("") ==> r == c
    ensures saved == Some("dark") ==> r.darkMode && !r.lightMode
    ensures saved == Some("light") ==> r.lightMode && !r.darkMode
    ensures saved.Some? && saved.value !in {"", "dark", "light"} ==> !r.darkMode && !r.lightMode
  {
    match saved
    case None => c
    case Some(v) =>
      if v == "" then c else BodyClasses(v == "dark", v == "light")
  }

  /** The `theme` key of the key-value store and the document's
      `data-theme` attribute (`None` when never written). */
  datatype Storage = Storage(theme: Option<string>, dataTheme: Option<string>)

  /** A theme name the stylesheet knows. */
  predicate KnownTheme(v: Option<string>) {
    v == Some("dark") || v == Some("light")
  }

  /** `setTheme(name)`: writes the key and the attribute. */
  function SetTheme(s: Storage, name: string): (r: Storage)
    ensures r.theme == Some(name) && r.dataTheme == Some(name)
  {
    Storage(Some(name), Some(name))
  }

  /** `toggleTheme()`: "light" after "dark", "dark" after anything else,
      including a missing key. No caller in the script. */
  function ToggleTheme(s: Storage): (r: Storage)
    ensures KnownTheme(r.theme) && r.dataTheme == r.theme
    ensures r.theme == Some("light") <==> s.theme == Some("dark")
  {
    if s.theme == Some("dark") then SetTheme(s, "light") else SetTheme(s, "dark")
  }

  /** The initialiser: keeps "dark", turns anything else into "light". */
  function InitTheme(s: Storage): (r: Storage)
    ensures KnownTheme(r.theme) && r.dataTheme == r.theme
    ensures r.theme == Some("dark") <==> s.theme == Some("dark")
    ensures KnownTheme(s.theme) ==> r.theme == s.theme
  {
    if s.theme == Some("dark") then SetTheme(s, "dark") else SetTheme(s, "light")
  }

  /** A stored known theme is left as it is by the initialiser, so running
      it again changes nothing. */
  lemma InitThemeIdempotent(s: Storage)
    ensures InitTheme(InitTheme(s)) == InitTheme(s)
    ensures KnownTheme(s.theme) && s.dataTheme == s.theme ==> InitTheme(s) == s
  {
  }

  /** Once a known theme is stored, two toggles restore it and one toggle
      always changes it. */
  lemma ToggleThemeInvolution(s: Storage)
    requires KnownTheme(s.theme)
    ensures ToggleTheme(ToggleTheme(s)).theme == s.theme
    ensures ToggleTheme(s).theme != s.theme
  {
  }

  /** The classes are chosen from the value read before the initialiser
      normalises the store, so they can disagree with `data-theme`: a saved
      "blue" clears both classes while the attribute becomes "light". */
  lemma SavedValueNormalisedAfterClasses(c: BodyClasses)
    ensures var saved := Storage(Some("blue"), None);
      && ApplySavedTheme(c, saved.theme) == BodyClasses(false, false)
      && InitTheme(saved).dataTheme == Some("light")
  {
  }
}

=== FILE: wrappers.dfy ===
/** An optional value, such as the result of reading a key from the
    browser's key-value store. */
module Wrappers {

  /** `None` stands for JavaScript's `null` (a missing key). */
  datatype Option<+T> = None | Some(value: T)
}
